=== FILE: README.md ===
# Peer coordinator of the volley game, modelled in Dafny

Every player process of the game runs a `V23Manager`. It finds the other
players through the namespace and keeps their ids in a roster sorted by id.
From its own position in that roster it derives which of its two screen
"doors" open onto a neighbour. It sends door commands to the screen, and it
hands a thrown ball to the player immediately to its left or right. All
state changes happen in one event loop.

This project models that coordinator as pure transitions over immutable
values:

- `Model`: door states, sides, door commands and remote procedures. It also
  defines the `Output` trace of everything the coordinator does to the
  outside world. A channel send, an RPC, registering the service, stopping
  the relay and shutting down are each one `Output` appended to the trace.
  A `log.Panic` becomes `Effect.Fatal(reason, outputs emitted before it)`.
- `Roster`: insertion point, sorted insertion, first-match search and
  removal on the list of ids, and the recognize-then-forget round trip.
- `Doors`: the door rule, the idempotent `assureDoor`, and the door check
  that runs both.
- `Naming`: the `%04d` server name and the `strconv.ParseInt(s, 10, 32)`
  parse of the suffix found by discovery, with the round trip between them.
- `Broadcast`: one call per roster entry, in order. Greeting and the
  command broadcasts stop at the first failure. Saying goodbye carries on.
- `Coordinator`: the coordinator state, recognize/forget, ball routing,
  choosing the own id, `IsReadyToRun`, `RunPrep`, and the `Run` loop as a
  fold over the events it receives.

Which RPCs fail is a parameter. `down` is the set of player ids whose calls
fail. Whether the pre-flight network check fails, what the namespace glob
returns and whether `Serve` succeeds are parameters of `IsReadyToRun`.

Three behaviours of the code are worth knowing because they are easy to
assume otherwise:

- The roster is sorted but not strictly. `recognizeOther` inserts a
  repeated id again after the entries equal to it; it is not ignored.
- `playerNumbers` returns the parsed ids in glob order, duplicates
  included. The sorting happens in `IsReadyToRun`.
- A non-empty glob name shorter than the root name makes `name[len(root):]`
  panic; the model returns `Fatal(SliceOutOfRange(name))`.

The door rule and ball routing disagree when another player has this
player's own id. `Doors.DoorsMatchNeighbours` proves that the left door is
open exactly when a left throw has a target. It proves the same for the
right side when no roster entry shares the own id.
`Doors.SharedIdOpensRightDoor` shows the exception. With own id 5 and
roster `[5]` the right door is open, but a right throw has nobody to go to,
which is fatal. Two players starting at the same time can choose the same
id, and the code does nothing to prevent it, so the model keeps both
behaviours as the code has them.

## Model

| member | source | states |
|---|---|---|
| Roster.FindInsertion | net/v23_manager.go:266-277 | the result is the first index whose id is strictly greater than the argument, or the roster length; every entry before it is ≤ the argument, and on a sorted roster every entry from it on is greater |
| Roster.Insert | net/v23_manager.go:248-252 | exactly one entry is added, at the insertion index; removing that index gives back the old roster; the multiset grows by the id; sortedness is preserved |
| Roster.FindIndex | net/v23_manager.go:284-291 | returns the least index below the limit satisfying the predicate, or -1 exactly when no index below the limit satisfies it |
| Roster.FindPlayerIndex | net/v23_manager.go:279-282 | the result lies between -1 and the last index; it is -1 exactly when the id is absent, and otherwise the index of an entry with that id with no earlier entry having it |
| Roster.Remove | net/v23_manager.go:294-304 | an absent id leaves the roster unchanged; otherwise only the first matching entry is removed and the others keep their order; sortedness is preserved |
| Roster.RecognizeThenForget | net/v23_manager.go:242-306 | on a sorted roster, inserting an id and then removing it restores the roster, even when the id was already present |
| Roster.SortInts | net/v23_manager.go:152 | the result is sorted and a permutation of the discovered ids |
| Doors.DoorRule | net/v23_manager.go:308-336 | on a sorted roster the left door is open exactly when some player has an id ≤ the own id, and the right door exactly when some player has an id ≥ it |
| Doors.AssureDoor | net/v23_manager.go:366-411 | the targeted door ends in the commanded state and the other door is untouched; if it was already there nothing changes and nothing is sent, otherwise exactly that one command is sent |
| Doors.AssureDoorTwice | net/v23_manager.go:366-411 | repeating a door command changes and sends nothing; the two calls send one command exactly when the door was not already in that state |
| Doors.CheckDoors | net/v23_manager.go:308-340 | the doors end as the door rule says; one command is sent per door that changes, left before right, each naming its new state; nothing is sent exactly when the doors were already right |
| Doors.CheckDoorsIdempotent | net/v23_manager.go:308-336 | a second check on the same roster changes and sends nothing |
| Doors.DoorsMatchNeighbours | net/v23_manager.go:318-329 | on a sorted roster the left door is open exactly when the own insertion index is positive; with no shared id, the right door is open exactly when that index is below the roster length |
| Doors.SharedIdOpensRightDoor | net/v23_manager.go:324-335 | with own id 5 and roster [5] the right door is open while the insertion index equals the roster length |
| Doors.DoorScenarios | net/v23_manager.go:312-336 | own id 5: empty roster gives both doors closed, [3, 7] both open, [10] left closed and right open, [1] left open and right closed |
| Naming.Format04 | net/v23_manager.go:239 | at least four characters, and more only when no zero was padded in; all digits for a non-negative id, a minus sign followed by digits for a negative one |
| Naming.ServerName | net/v23_manager.go:238-240 | the root name is a prefix and at least four characters follow it |
| Naming.ParseInt32 | net/v23_manager.go:494 | a value is returned exactly when the string is an optional sign followed by one or more decimal digits and nothing else, and the number it denotes lies in the 32-bit range; the value is that number |
| Naming.ServerNameRoundTrip | net/v23_manager.go:238-240 | for every id in 32-bit range, stripping the root name from the server name and parsing the rest yields the id |
| Naming.ParseReplies | net/v23_manager.go:482-506 | no outputs, at most one id per reply, each in 32-bit range; fatal exactly when some reply is an entry whose name is non-empty and shorter than the root name, and the fatal reason names such a name |
| Naming.PlayerNumbers | net/v23_manager.go:459-511 | a failed glob gives no ids; a successful glob gives exactly what parsing its replies gives; every id found is in 32-bit range |
| Naming.DiscoveryRoundTrip | net/v23_manager.go:482-506 | discovery over the server names of a list of 32-bit ids returns exactly that list |
| Naming.MalformedNameSkipped | net/v23_manager.go:494-499 | a name whose suffix does not parse contributes nothing and is not fatal |
| Naming.IgnoredRepliesSkipped | net/v23_manager.go:486-504 | a reply that is not an entry, and an entry with an empty name, contribute nothing and are never fatal |
| Naming.ParsedNameKept | net/v23_manager.go:493-498 | a name whose suffix parses contributes that id ahead of the ids from later replies, unless a later reply is fatal |
| Broadcast.CallEach | net/v23_manager.go:419-432 | succeeds exactly when no target is down, having called every target in order; otherwise it stops at the first target that is down, having called exactly the targets up to and including it |
| Broadcast.SayHello | net/v23_manager.go:413-436 | succeeds exactly when no roster entry is down, having asked every entry in order to recognize the own id as an int32; otherwise it stops at the first entry that is down, after asking exactly the entries up to it |
| Broadcast.SayGoodbye | net/v23_manager.go:438-456 | every roster entry is asked, in order, to forget the own id, whichever calls fail |
| Broadcast.Command | net/v23_manager.go:609-652 | a named command, a kick, a pause duration or a gravity setting goes to every roster entry in order; it succeeds exactly when no entry is down, and otherwise stops at the first entry that is down, after calling exactly the entries up to it |
| Broadcast.Matching | net/v23_manager.go:559-560 | the entries selected are those with the given id, as many as the roster holds |
| Broadcast.Quit | net/v23_manager.go:558-569 | only entries with the given id are called, once each; it fails exactly when that id is present and down, after one call (see the note on `down` under Left out) |
| Model.Wrap32 | net/v23_manager.go:418 | the int32 conversion lands in 32-bit range, differs from the input by a multiple of 2^32, and is the identity in range |
| Coordinator.New | net/v23_manager.go:64-88 | a new coordinator keeps the given root name, is not running and not the master, has no ball channel and no initial ids, knows nobody and has both doors closed |
| Coordinator.SelfId | net/v23_manager.go:152-160 | the game master takes 999; otherwise 1 when nothing was discovered, else one more than the largest discovered id |
| Coordinator.IsReadyToRun | net/v23_manager.go:131-186 | not ready only when the pre-flight check fails; a discovery panic is passed on; otherwise only the master flag, the kept ids and the own id change: the kept ids are the discovered ids sorted, the own id follows the rule above, the master is ready without output, and a player registers under its server name, ready exactly when registration succeeds |
| Coordinator.RecognizeOther | net/v23_manager.go:242-264 | only roster and doors change; the id is inserted at its insertion index; when running, the doors follow the door rule and exactly the door check's commands are sent; when not running, the doors are untouched and nothing is sent |
| Coordinator.ForgetOther | net/v23_manager.go:293-306 | only roster and doors change; the first matching entry is removed, or nothing when absent; the doors follow the door rule and exactly the door check's commands are sent, running or not |
| Coordinator.RecognizeThenForgetRestores | net/v23_manager.go:242-306 | with a sorted roster and up-to-date doors, recognizing then forgetting an id restores the whole coordinator state |
| Coordinator.SendBall | net/v23_manager.go:678-689 | exactly one Accept call to the target; fatal exactly when the target is down |
| Coordinator.ThrowBall | net/v23_manager.go:655-676 | on a sorted roster a left throw goes to the last entry with id ≤ the own id, and on any roster a right throw goes to the first entry with a greater id; without such an entry it is fatal with no call |
| Coordinator.ReplayInitial | net/v23_manager.go:518-520 | the roster becomes the discovered ids inserted in order; before running, the doors are untouched and nothing is sent |
| Coordinator.Greet | net/v23_manager.go:524-531 | succeeds exactly when a master has no ball channel, or a player finds no roster entry down; a master with a ball channel is fatal before any call; a player's failure comes after recognizing exactly the entries up to the first one down; on success only the running flag changes |
| Coordinator.RunPrep | net/v23_manager.go:513-532 | succeeds exactly when a master has no ball channel, or a player finds none of the known and discovered ids down; on success the coordinator is running with all discovered ids inserted; before running, no door command is sent and the doors are unchanged; a player has greeted every roster entry |
| Coordinator.SameMembers | net/v23_manager.go:518-520 | replaying the discovered ids leaves in the roster exactly the ids that were known or discovered |
| Coordinator.Loop | net/v23_manager.go:539-556 | every event served keeps the roster sorted and the doors equal to the door rule, and leaves the own id and the ball channel unchanged |
| Coordinator.RecognitionStep | net/v23_manager.go:550-551 | the first of a list of recognize events is served by recognizing that player, and the loop then goes on with the rest, ending as that continuation ends |
| Coordinator.ForgetStep | net/v23_manager.go:552-553 | the first of a list of forget events is served by forgetting that player, and the loop then goes on with the rest, ending as that continuation ends |
| Coordinator.LoopServesRecognitions | net/v23_manager.go:539-551 | a run of recognize events is served in full: the loop ends normally and the roster holds the old entries plus every recognized id |
| Coordinator.LoopServesForgets | net/v23_manager.go:539-553 | a run of forget events is served in full: the loop ends normally and one entry is removed for each forgotten id still present |
| Coordinator.Run | net/v23_manager.go:534-556 | after the first door check and the events, a running coordinator with a sorted roster has doors matching the door rule |
| Coordinator.StartupDoors | net/v23_manager.go:513-538 | preparation sends no door command and leaves the doors as they were; the roster is the sorted discovered ids, and the one check at the start of the loop makes the doors match them |
| Coordinator.LoopServesBall | net/v23_manager.go:548-549 | with a ball channel, a ball command is served by the throw: a fatal throw ends the loop with its outputs, otherwise its call precedes the rest of the loop |
| Coordinator.LoopServesDrain | net/v23_manager.go:545-547 | a drain request stops the relay accepting, asks every roster entry to forget the own id, and the loop goes on with the next event |
| Coordinator.StopEndsLoop | net/v23_manager.go:541-544 | a stop request shuts down, closes the door channel and ends the loop; later events are not served |
| Coordinator.LeftmostThrowIsFatal | net/v23_manager.go:660-667 | throwing left with nobody whose id is ≤ the own id is fatal and calls nobody |

## Left out

- Runtime and network set-up: `v23.Init`, `SetRoots`, `MakeServer`, `Serve` and the HTTP pre-flight check (`gotNetwork`, `DetermineNamespaceRoot`) are foreign or I/O. Their outcomes are the `preflightFails` and `serveOk` parameters. The `shutdown nil` panic after `v23.Init` is not modelled.
- The namespace glob itself: it is the `glob` parameter. `None` stands for a failed glob, and the one-minute timeout is not modelled.
- Blocking channel handshakes: the `Stop`/`NoNewBallsOrPeople` request and acknowledgement, and the blocking of door sends. These are concurrency, not state. Each request is an event, and each send is an output.
- The nil door-channel panic in `assureDoor`: the channel is created in the constructor and never set to nil, so the branch cannot fire.
- What the relay does after `StopAcceptingData`: the relay is not part of this model. The call is recorded as an output, and the events the loop receives are an input.
- `FireBall`, `makeBall` and `serializeBall`: random float32/float64 ball construction and sleeps. Ball payloads are left out of `Accept` calls.
- `playersString`, `List`, `Me` and the channel accessors: logging and getters. `model.Player.String` is not part of this model.
- Float payloads of `SetPauseDuration` and `SetGravity`: only the call and its target are modelled.
- Names are sequences of characters. Go slices strings by byte, which agrees for the ASCII names used.
- Broadcast.Quit: whether a call fails depends only on the target id (`down`), so a second call to the same id in one fan-out or one run cannot fail after a first one succeeded; with a repeated id, Go's `Quit` can stop that process with the first call and panic on the second, which the model does not express.
- Coordinator.Loop: requires that a coordinator without a ball channel receives no ball command, because a receive on Go's nil channel never fires.

=== FILE: broadcast.dfy ===
/**
 Fan-out of one remote call to the roster, one call per entry in roster
 order. Most fan-outs stop the process at the first failed call; the
 goodbye fan-out logs failures and carries on. Which calls fail is a
 parameter: `down` holds the ids of the players whose calls fail.
 */
module Broadcast {
  import opened Model

  /** One call of `rpc` to each target, in order. */
  function Calls(rpc: Rpc, targets: seq<int>): (r: seq<Output>)
    ensures |r| == |targets|
    ensures forall i :: 0 <= i < |targets| ==> r[i] == Call(rpc, targets[i])
  {
    seq(|targets|, i requires 0 <= i < |targets| => Call(rpc, targets[i]))
  }

  /** Call `rpc` on every target in order; the first failure is fatal. */
  function CallEach(rpc: Rpc, targets: seq<int>, down: set<int>): (r: Effect<()>)
    ensures r.Done? <==> forall i :: 0 <= i < |targets| ==> targets[i] !in down
    ensures r.Done? ==> r.out == Calls(rpc, targets)
    ensures r.Fatal? ==> FailedAt(rpc, targets, down, r.reason, r.out)
    decreases |targets|
  {
    if |targets| == 0 then Done((), [])
    else
      var call := Call(rpc, targets[0]);
      if targets[0] in down then
        assert targets[..1] == [targets[0]];
        Fatal(RpcFailed(rpc, targets[0]), [call])
      else
        var rest := CallEach(rpc, targets[1..], down);
        match rest
        case Done(_, out) =>
          CallEachDoneStep(rpc, targets, down, out);
          Done((), [call] + out)
        case Fatal(reason, out) =>
          CallEachFatalStep(rpc, targets, down, reason, out);
          Fatal(reason, [call] + out)
  }

  /** A fan-out stopped by `reason` after emitting `out`: every target up to
      and including the last one called was called in order, that last one
      is down and is the one the failure names, and no earlier one is down. */
  ghost predicate FailedAt(rpc: Rpc, targets: seq<int>, down: set<int>, reason: Panic, out: seq<Output>) {
    && 0 < |out| <= |targets|
    && out == Calls(rpc, targets[..|out|])
    && targets[|out| - 1] in down
    && reason == RpcFailed(rpc, targets[|out| - 1])
    && forall j :: 0 <= j < |out| - 1 ==> targets[j] !in down
  }

  lemma CallEachDoneStep(rpc: Rpc, targets: seq<int>, down: set<int>, out: seq<Output>)
    requires |targets| > 0 && targets[0] !in down
    requires forall i :: 0 <= i < |targets[1..]| ==> targets[1..][i] !in down
    requires out == Calls(rpc, targets[1..])
    ensures forall i :: 0 <= i < |targets| ==> targets[i] !in down
    ensures [Call(rpc, targets[0])] + out == Calls(rpc, targets)
  {
    assert forall i :: 1 <= i < |targets| ==> targets[i] == targets[1..][i - 1];
  }

  lemma CallEachFatalStep(rpc: Rpc, targets: seq<int>, down: set<int>, reason: Panic, out: seq<Output>)
    requires |targets| > 0 && targets[0] !in down
    requires FailedAt(rpc, targets[1..], down, reason, out)
    ensures FailedAt(rpc, targets, down, reason, [Call(rpc, targets[0])] + out)
  {
    var n := |out|;
    assert forall j :: 1 <= j < n + 1 ==> targets[j] == targets[1..][j - 1];
    assert [Call(rpc, targets[0])] + out == Calls(rpc, targets[..n + 1]);
  }

  /** A fan-out emits nothing but calls of its procedure. */
  lemma CallEachCallsOnly(rpc: Rpc, targets: seq<int>, down: set<int>)
    ensures forall i :: 0 <= i < |CallEach(rpc, targets, down).out| ==>
              CallEach(rpc, targets, down).out[i] == Call(rpc, CallEach(rpc, targets, down).out[i].target)
  {
  }

  /** Announce this player to every roster entry; any failure is fatal. */
  function SayHello(self: int, players: seq<int>, down: set<int>): (r: Effect<()>)
    ensures r.Done? <==> forall i :: 0 <= i < |players| ==> players[i] !in down
    ensures r.Done? ==> r.out == Calls(Recognize(Wrap32(self)), players)
    ensures r.Fatal? ==> FailedAt(Recognize(Wrap32(self)), players, down, r.reason, r.out)
  {
    CallEach(Recognize(Wrap32(self)), players, down)
  }

  /** Ask every roster entry to forget this player. A failed call is only
      logged, so every entry is asked whatever `down` holds. */
  function SayGoodbye(self: int, players: seq<int>, down: set<int>): (r: seq<Output>)
    ensures |r| == |players|
    ensures forall i :: 0 <= i < |r| ==> r[i].Call? && r[i].rpc == Forget(Wrap32(self)) && r[i].target == players[i]
  {
    Calls(Forget(Wrap32(self)), players)
  }

  /** The commands the game master broadcasts: a named command, a kick, a
      pause duration or a gravity setting (setting values are not modelled). */
  predicate IsMasterBroadcast(rpc: Rpc) {
    rpc.MasterCommand? || rpc.Kick? || rpc.SetPauseDuration? || rpc.SetGravity?
  }

  /** Send one master broadcast to every roster entry in order; the first
      failure is fatal. */
  function Command(rpc: Rpc, players: seq<int>, down: set<int>): (r: Effect<()>)
    requires IsMasterBroadcast(rpc)
    ensures r.Done? <==> forall i :: 0 <= i < |players| ==> players[i] !in down
    ensures r.Done? ==> r.out == Calls(rpc, players)
    ensures r.Fatal? ==> FailedAt(rpc, players, down, r.reason, r.out)
    ensures r.Fatal? ==> r.reason.RpcFailed? && r.reason.rpc == rpc
    ensures r.Fatal? ==> r.reason.target in down && r.reason.target in players
  {
    CallEach(rpc, players, down)
  }

  /** The roster entries whose id is `id`, in roster order. */
  function Matching(players: seq<int>, id: int): (r: seq<int>)
    ensures |r| == multiset(players)[id]
    ensures forall i :: 0 <= i < |r| ==> r[i] == id
    decreases |players|
  {
    if |players| == 0 then []
    else
      assert players == [players[0]] + players[1..];
      (if players[0] == id then [id] else []) + Matching(players[1..], id)
  }

  /** Ask every roster entry with id `id` to quit, and no other; any failure
      is fatal. */
  function Quit(id: int, players: seq<int>, down: set<int>): (r: Effect<()>)
    ensures forall i :: 0 <= i < |r.out| ==> r.out[i] == Call(Rpc.Quit, id)
    ensures r.Done? <==> id !in players || id !in down
    ensures r.Done? ==> |r.out| == multiset(players)[id]
    ensures r.Fatal? ==> r.out == [Call(Rpc.Quit, id)]
  {
    var targets := Matching(players, id);
    assert id in players ==> |targets| > 0;
    CallEach(Rpc.Quit, targets, down)
  }
}

=== FILE: coordinator.dfy ===
/**
 The peer coordinator: one player's view of the game. It owns the roster
 and the doors, recognizes and forgets other players, routes thrown balls
 to the neighbour on the requested side, chooses its own id at start-up,
 and serves events one at a time.

 The event loop's `select` is modelled as a fold over the sequence of
 events it happens to receive; every transition returns the new state and
 the outputs it emitted, or a fatal stop.
 */
module Coordinator {
  import opened Model
  import opened Roster
  import opened Doors
  import opened Naming
  import opened Broadcast

  /** The id the game master always takes. */
  const MasterId := 999

  datatype Coordinator = Coordinator(
    rootName: string,
    self: int,
    isMaster: bool,
    isRunning: bool,
    doors: DoorPair,
    players: seq<int>,
    initial: seq<int>,
    hasBallChannel: bool)

  /** The coordinator's state after it has started serving events. */
  ghost predicate Running(c: Coordinator) {
    && c.isRunning
    && Sorted(c.players)
    && c.doors == DoorRule(c.self, c.players)
  }

  /** A freshly constructed coordinator: not running, doors closed, nobody
      known, and no id yet. */
  function New(rootName: string): (c: Coordinator)
    ensures !c.isRunning && c.players == [] && c.doors == DoorPair(Closed, Closed)
    ensures c.rootName == rootName && !c.isMaster && !c.hasBallChannel && c.initial == []
    ensures Sorted(c.players)
  {
    Coordinator(rootName, 0, false, false, Initial, [], [], false)
  }

  /** This player's id: one more than the largest id discovered, 1 when none
      was discovered, and the master's fixed id for the game master. */
  function SelfId(discovered: seq<int>, isMaster: bool): (id: int)
    ensures isMaster ==> id == MasterId
    ensures !isMaster && |discovered| == 0 ==> id == 1
    ensures !isMaster && |discovered| > 0 ==> id - 1 in discovered && forall x :: x in discovered ==> x < id
  {
    var sorted := SortInts(discovered);
    SortedLastIsMax(discovered);
    var myId := if |sorted| > 0 then sorted[|sorted| - 1] + 1 else 1;
    if isMaster then MasterId else myId
  }

  lemma SortedLastIsMax(xs: seq<int>)
    ensures |SortInts(xs)| == |xs|
    ensures |xs| > 0 ==> var s := SortInts(xs);
                         s[|s| - 1] in xs && forall x :: x in xs ==> x <= s[|s| - 1]
  {
    var s := SortInts(xs);
    assert |multiset(s)| == |s| && |multiset(xs)| == |xs|;
    if |xs| > 0 {
      LastIsMax(s);
      assert s[|s| - 1] in multiset(xs);
      assert forall x :: x in xs ==> x in multiset(s);
    }
  }

  /** Start-up before the loop. A failed pre-flight network check (when the
      configuration demands one) answers "not ready". Otherwise the ids found
      under the root name are sorted and kept for replay, the own id is
      chosen, and a player who is not the master registers its service under
      its server name; a registration failure is fatal. */
  function IsReadyToRun(c: Coordinator, isMaster: bool, preflightFails: bool,
                        glob: Option<seq<GlobReply>>, serveOk: bool): (r: Effect<Option<Coordinator>>)
    ensures preflightFails ==> r == Done(None, [])
    ensures r.Done? && r.value.Some? ==>
              && r.value.value.self == SelfId(r.value.value.initial, isMaster)
              && Sorted(r.value.value.initial)
    ensures r.Done? && r.value.Some? && !isMaster ==>
              r.out == [Serve(ServerName(c.rootName, r.value.value.self))]
    ensures !preflightFails && !isMaster && !serveOk ==> r.Fatal?
    ensures r.Done? && r.value.None? ==> preflightFails
    ensures r.Done? && r.value.Some? ==>
              && PlayerNumbers(c.rootName, glob).Done?
              && multiset(r.value.value.initial) == multiset(PlayerNumbers(c.rootName, glob).value)
    ensures !preflightFails && PlayerNumbers(c.rootName, glob).Done? && (isMaster || serveOk) ==>
              r.Done? && r.value.Some?
    ensures !preflightFails && PlayerNumbers(c.rootName, glob).Fatal? ==>
              r == Fatal(PlayerNumbers(c.rootName, glob).reason, [])
    ensures r.Done? && isMaster ==> r.out == []
    ensures r.Done? && r.value.Some? ==>
              r.value.value == c.(isMaster := isMaster, initial := r.value.value.initial, self := r.value.value.self)
  {
    if preflightFails then Done(None, [])
    else
      match PlayerNumbers(c.rootName, glob)
      case Fatal(reason, out) => Fatal(reason, out)
      case Done(found, _) =>
        var initial := SortInts(found);
        var id := SelfId(found, isMaster);
        assert id == SelfId(initial, isMaster) by {
          SameIdForPermutation(found, initial, isMaster);
        }
        var c1 := c.(isMaster := isMaster, initial := initial, self := id);
        if isMaster then Done(Some(c1), [])
        else
          var name := ServerName(c.rootName, id);
          if serveOk then Done(Some(c1), [Serve(name)]) else Fatal(ServeFailed, [Serve(name)])
  }

  lemma SameIdForPermutation(a: seq<int>, b: seq<int>, isMaster: bool)
    requires multiset(a) == multiset(b)
    ensures SelfId(a, isMaster) == SelfId(b, isMaster)
  {
    assert |multiset(a)| == |a| && |multiset(b)| == |b|;
    if !isMaster && |a| > 0 {
      var x, y := SelfId(a, false), SelfId(b, false);
      assert x - 1 in multiset(a);
      assert x - 1 in b;
      assert y - 1 in multiset(b);
      assert y - 1 in a;
    }
  }

  /** Add a player to the roster at its sorted position; the doors are
      recomputed only once the loop is running. */
  function RecognizeOther(c: Coordinator, p: int): (r: (Coordinator, seq<Output>))
    ensures r.0 == c.(players := r.0.players, doors := r.0.doors)
    ensures multiset(r.0.players) == multiset(c.players) + multiset{p}
    ensures r.0.players[FindInsertion(c.players, p)] == p
    ensures RemoveAt(r.0.players, FindInsertion(c.players, p)) == c.players
    ensures Sorted(c.players) ==> Sorted(r.0.players)
    ensures c.isRunning ==> r.0.doors == DoorRule(c.self, r.0.players)
    ensures !c.isRunning ==> r.0.doors == c.doors && r.1 == []
    ensures c.isRunning ==> r.1 == CheckDoors(c.self, r.0.players, c.doors).1
    ensures forall i :: 0 <= i < |r.1| ==> r.1[i].SendDoor?
  {
    var c1 := c.(players := Insert(c.players, p));
    if c.isRunning then
      var (d, out) := CheckDoors(c.self, c1.players, c.doors);
      (c1.(doors := d), out)
    else (c1, [])
  }

  /** Remove the first roster entry with id `p`, if any; the doors are
      recomputed in either case. */
  function ForgetOther(c: Coordinator, p: int): (r: (Coordinator, seq<Output>))
    ensures r.0 == c.(players := r.0.players, doors := r.0.doors)
    ensures p !in c.players ==> r.0.players == c.players
    ensures p in c.players ==>
              exists i :: 0 <= i < |c.players| && c.players[i] == p && p !in c.players[..i]
                          && r.0.players == RemoveAt(c.players, i)
    ensures multiset(r.0.players) == multiset(c.players) - multiset{p}
    ensures Sorted(c.players) ==> Sorted(r.0.players)
    ensures r.0.doors == DoorRule(c.self, r.0.players)
    ensures r.1 == CheckDoors(c.self, r.0.players, c.doors).1
    ensures forall i :: 0 <= i < |r.1| ==> r.1[i].SendDoor?
  {
    var players := Remove(c.players, p);
    var (d, out) := CheckDoors(c.self, players, c.doors);
    (c.(players := players, doors := d), out)
  }

  /** Recognizing a player and then forgetting it gives back the state it
      started from: the same roster and, once the doors were up to date, the
      same doors. */
  lemma RecognizeThenForgetRestores(c: Coordinator, p: int)
    requires Sorted(c.players)
    requires c.doors == DoorRule(c.self, c.players)
    ensures ForgetOther(RecognizeOther(c, p).0, p).0 == c
  {
    RecognizeThenForget(c.players, p);
  }

  /** `j` is the last roster entry whose id does not exceed `self`. */
  ghost predicate IsLeftNeighbour(ids: seq<int>, self: int, j: int) {
    && 0 <= j < |ids|
    && ids[j] <= self
    && forall i :: j < i < |ids| ==> self < ids[i]
  }

  /** `j` is the first roster entry whose id exceeds `self`. */
  ghost predicate IsRightNeighbour(ids: seq<int>, self: int, j: int) {
    && 0 <= j < |ids|
    && self < ids[j]
    && forall i :: 0 <= i < j ==> ids[i] <= self
  }

  /** The Accept call that hands the ball to `target`; a failure is fatal. */
  function SendBall(target: int, down: set<int>): (r: Effect<()>)
    ensures r.out == [Call(Accept, target)]
    ensures r.Done? <==> target !in down
    ensures r.Fatal? ==> r.reason == RpcFailed(Accept, target)
  {
    if target in down then Fatal(RpcFailed(Accept, target), [Call(Accept, target)])
    else Done((), [Call(Accept, target)])
  }

  /** Throw a ball to the immediate neighbour on one side. Without a
      neighbour on that side the process stops before any call is made. */
  function ThrowBall(c: Coordinator, dir: Direction, down: set<int>): (r: Effect<()>)
    ensures dir == Left && Sorted(c.players) ==>
              && (r == Fatal(NobodyOnLeft, []) <==> forall j :: 0 <= j < |c.players| ==> c.self < c.players[j])
              && (r != Fatal(NobodyOnLeft, []) ==>
                    exists j :: IsLeftNeighbour(c.players, c.self, j) && r.out == [Call(Accept, c.players[j])])
    ensures dir == Right ==>
              && (r == Fatal(NobodyOnRight, []) <==> forall j :: 0 <= j < |c.players| ==> c.players[j] <= c.self)
              && (r != Fatal(NobodyOnRight, []) ==>
                    exists j :: IsRightNeighbour(c.players, c.self, j) && r.out == [Call(Accept, c.players[j])])
    ensures r.out != [] ==> |r.out| == 1 && r.out[0].Call? && (r.Done? <==> r.out[0].target !in down)
  {
    var k := FindInsertion(c.players, c.self);
    match dir
    case Left =>
      if k - 1 >= 0 then
        assert IsLeftNeighbour(c.players, c.self, k - 1) || !Sorted(c.players);
        SendBall(c.players[k - 1], down)
      else Fatal(NobodyOnLeft, [])
    case Right =>
      if k <= |c.players| - 1 then
        assert IsRightNeighbour(c.players, c.self, k);
        SendBall(c.players[k], down)
      else Fatal(NobodyOnRight, [])
  }

  /** Replay discovered ids as recognitions, in order. */
  function ReplayInitial(c: Coordinator, ids: seq<int>): (r: (Coordinator, seq<Output>))
    ensures r.0 == c.(players := r.0.players, doors := r.0.doors)
    ensures r.0.players == InsertAll(c.players, ids)
    ensures !c.isRunning ==> r.0.doors == c.doors && r.1 == []
    ensures forall i :: 0 <= i < |r.1| ==> r.1[i].SendDoor?
    decreases |ids|
  {
    if |ids| == 0 then (c, [])
    else
      var (c1, o1) := RecognizeOther(c, ids[0]);
      var (c2, o2) := ReplayInitial(c1, ids[1..]);
      (c2, o1 + o2)
  }

  /** The part of preparation after the replay: the master must not have a
      ball channel, a player greets every roster entry, and then the
      coordinator is marked running. */
  function Greet(c: Coordinator, down: set<int>): (r: Effect<Coordinator>)
    ensures c.isMaster && c.hasBallChannel ==> r == Fatal(MasterHasBallChannel, [])
    ensures r.Done? <==> if c.isMaster then !c.hasBallChannel
                         else forall i :: 0 <= i < |c.players| ==> c.players[i] !in down
    ensures r.Fatal? && !c.isMaster ==> FailedAt(Recognize(Wrap32(c.self)), c.players, down, r.reason, r.out)
    ensures r.Done? ==> r.value == c.(isRunning := true)
    ensures forall i :: 0 <= i < |r.out| ==> r.out[i].Call?
    ensures r.Done? && !c.isMaster ==> r.out == Calls(Recognize(Wrap32(c.self)), c.players)
    ensures r.Done? && c.isMaster ==> r.out == []
  {
    if c.isMaster then
      if c.hasBallChannel then Fatal(MasterHasBallChannel, [])
      else Done(c.(isRunning := true), [])
    else
      var hello := SayHello(c.self, c.players, down);
      assert forall i :: 0 <= i < |hello.out| ==> hello.out[i].Call? by {
        CallEachCallsOnly(Recognize(Wrap32(c.self)), c.players, down);
      }
      if hello.Fatal? then Fatal(hello.reason, hello.out)
      else Done(c.(isRunning := true), hello.out)
  }

  /** Final preparation: replay the discovered ids, greet every player (the
      master greets nobody and must not have a ball channel), and only then
      mark the coordinator as running. */
  function RunPrep(c: Coordinator, hasBallChannel: bool, down: set<int>): (r: Effect<Coordinator>)
    ensures c.isMaster && hasBallChannel ==> r.Fatal? && r.reason == MasterHasBallChannel
    ensures r.Done? <==> if c.isMaster then !hasBallChannel
                         else forall x :: x in c.players + c.initial ==> x !in down
    ensures r.Done? ==>
              && r.value.isRunning
              && r.value.hasBallChannel == hasBallChannel
              && r.value.players == InsertAll(c.players, c.initial)
              && r.value.self == c.self && r.value.isMaster == c.isMaster
    ensures !c.isRunning ==> (r.Done? ==> r.value.doors == c.doors)
    ensures !c.isRunning ==> forall i :: 0 <= i < |r.out| ==> !r.out[i].SendDoor?
    ensures !c.isRunning && r.Done? && !c.isMaster ==>
              r.out == Calls(Recognize(Wrap32(c.self)), r.value.players)
    ensures !c.isRunning && r.Done? && c.isMaster ==> r.out == []
  {
    var replayed := ReplayInitial(c.(hasBallChannel := hasBallChannel), c.initial);
    SameMembers(c.players, c.initial);
    var greeted := Greet(replayed.0, down);
    match greeted
    case Fatal(reason, out) => Fatal(reason, replayed.1 + out)
    case Done(c2, out) => Done(c2, replayed.1 + out)
  }

  /** Replaying the discovered ids leaves exactly the ids of the roster and
      of the discovery in the roster. */
  lemma SameMembers(players: seq<int>, initial: seq<int>)
    ensures forall x :: x in InsertAll(players, initial) <==> x in players + initial
  {
    var r := InsertAll(players, initial);
    assert multiset(r) == multiset(players + initial);
    forall x
      ensures x in r <==> x in players + initial
    {
      assert x in r <==> x in multiset(r);
      assert x in players + initial <==> x in multiset(players + initial);
    }
  }

  /** What the loop can receive. */
  datatype Event =
    | StopRequest
    | NoNewBallsOrPeopleRequest
    | BallCommand(dir: Direction)
    | RecognizeEvent(id: int)
    | ForgetEvent(id: int)

  /** A coordinator without a ball channel never receives a ball command. */
  predicate Deliverable(c: Coordinator, events: seq<Event>) {
    c.hasBallChannel || forall i :: 0 <= i < |events| ==> !events[i].BallCommand?
  }

  function Prepend(out: seq<Output>, r: Effect<Coordinator>): (r': Effect<Coordinator>)
    ensures r'.Done? == r.Done? && r'.out == out + r.out
    ensures r.Done? ==> r'.value == r.value
  {
    match r
    case Done(c, o) => Done(c, out + o)
    case Fatal(reason, o) => Fatal(reason, out + o)
  }

  /** One recognize event per id, in order. */
  function Recognitions(ids: seq<int>): (events: seq<Event>)
    ensures |events| == |ids|
    ensures forall i :: 0 <= i < |ids| ==> events[i] == RecognizeEvent(ids[i])
  {
    if |ids| == 0 then [] else [RecognizeEvent(ids[0])] + Recognitions(ids[1..])
  }

  /** One forget event per id, in order. */
  function Forgets(ids: seq<int>): (events: seq<Event>)
    ensures |events| == |ids|
    ensures forall i :: 0 <= i < |ids| ==> events[i] == ForgetEvent(ids[i])
  {
    if |ids| == 0 then [] else [ForgetEvent(ids[0])] + Forgets(ids[1..])
  }

  /** Serve events in arrival order until a stop request. A stop shuts the
      runtime down, closes the door channel and ends the loop; later events
      are never served. */
  function Loop(c: Coordinator, events: seq<Event>, down: set<int>): (r: Effect<Coordinator>)
    requires Deliverable(c, events)
    ensures Running(c) && r.Done? ==> Running(r.value)
    ensures r.Done? ==> r.value.self == c.self && r.value.hasBallChannel == c.hasBallChannel
    decreases |events|
  {
    if |events| == 0 then Done(c, [])
    else
      var rest := events[1..];
      assert Deliverable(c, rest);
      match events[0]
      case StopRequest => Done(c, [Shutdown, CloseDoorChannel])
      case NoNewBallsOrPeopleRequest =>
        Prepend([RelayStopAccepting] + SayGoodbye(c.self, c.players, down), Loop(c, rest, down))
      case BallCommand(dir) =>
        var thrown := ThrowBall(c, dir, down);
        if thrown.Fatal? then Fatal(thrown.reason, thrown.out)
        else Prepend(thrown.out, Loop(c, rest, down))
      case RecognizeEvent(p) =>
        var (c1, out) := RecognizeOther(c, p);
        Prepend(out, Loop(c1, rest, down))
      case ForgetEvent(p) =>
        var (c1, out) := ForgetOther(c, p);
        Prepend(out, Loop(c1, rest, down))
  }

  /** The loop: one door check covering everything recognized before it,
      then the events. */
  function Run(c: Coordinator, events: seq<Event>, down: set<int>): (r: Effect<Coordinator>)
    requires Deliverable(c, events)
    ensures c.isRunning && Sorted(c.players) && r.Done? ==> Running(r.value)
  {
    var (d, out) := CheckDoors(c.self, c.players, c.doors);
    Prepend(out, Loop(c.(doors := d), events, down))
  }

  /** Deferred door check: during preparation no door command is sent and
      the doors keep their initial state, and the single check at the start
      of the loop brings them in line with every discovered player. */
  lemma StartupDoors(c: Coordinator, hasBallChannel: bool, down: set<int>)
    requires !c.isRunning && c.players == []
    requires RunPrep(c, hasBallChannel, down).Done?
    ensures var prepped := RunPrep(c, hasBallChannel, down);
            && (forall i :: 0 <= i < |prepped.out| ==> !prepped.out[i].SendDoor?)
            && prepped.value.doors == c.doors
            && prepped.value.players == SortInts(c.initial)
            && Running(prepped.value.(doors := CheckDoors(c.self, prepped.value.players, c.doors).0))
  {
  }

  /** A list of recognize or forget events can be delivered to any
      coordinator: it holds no ball command. */
  lemma NoBallCommands(c: Coordinator, ids: seq<int>)
    ensures Deliverable(c, Recognitions(ids)) && Deliverable(c, Forgets(ids))
  {
  }

  /** Serving the first of a list of recognize events hands the rest to the
      loop with the recognized player added. */
  lemma RecognitionStep(c: Coordinator, ids: seq<int>, down: set<int>)
    requires |ids| > 0
    ensures Deliverable(c, Recognitions(ids))
    ensures Deliverable(RecognizeOther(c, ids[0]).0, Recognitions(ids[1..]))
    ensures var r, r1 := Loop(c, Recognitions(ids), down), Loop(RecognizeOther(c, ids[0]).0, Recognitions(ids[1..]), down);
            r.Done? == r1.Done? && (r1.Done? ==> r.value == r1.value)
  {
    NoBallCommands(c, ids);
    NoBallCommands(RecognizeOther(c, ids[0]).0, ids[1..]);
    assert Recognitions(ids) == [RecognizeEvent(ids[0])] + Recognitions(ids[1..]);
  }

  /** Serving the first of a list of forget events hands the rest to the
      loop with the forgotten player removed. */
  lemma ForgetStep(c: Coordinator, ids: seq<int>, down: set<int>)
    requires |ids| > 0
    ensures Deliverable(c, Forgets(ids))
    ensures Deliverable(ForgetOther(c, ids[0]).0, Forgets(ids[1..]))
    ensures var r, r1 := Loop(c, Forgets(ids), down), Loop(ForgetOther(c, ids[0]).0, Forgets(ids[1..]), down);
            r.Done? == r1.Done? && (r1.Done? ==> r.value == r1.value)
  {
    NoBallCommands(c, ids);
    NoBallCommands(ForgetOther(c, ids[0]).0, ids[1..]);
    assert Forgets(ids) == [ForgetEvent(ids[0])] + Forgets(ids[1..]);
  }

  lemma SplitFirst(ids: seq<int>)
    requires |ids| > 0
    ensures multiset(ids) == multiset{ids[0]} + multiset(ids[1..])
  {
    assert ids == [ids[0]] + ids[1..];
  }

  lemma MinusTwice(m: multiset<int>, p: int, n: multiset<int>)
    ensures m - multiset{p} - n == m - (multiset{p} + n)
  {
  }

  /** Every recognize event is served: after a run of them, the roster holds
      the old entries plus every recognized id. */
  lemma {:induction false} LoopServesRecognitions(c: Coordinator, ids: seq<int>, down: set<int>)
    ensures Deliverable(c, Recognitions(ids))
    ensures var r := Loop(c, Recognitions(ids), down);
            r.Done? && multiset(r.value.players) == multiset(c.players) + multiset(ids)
    decreases |ids|
  {
    NoBallCommands(c, ids);
    if |ids| > 0 {
      var c1 := RecognizeOther(c, ids[0]).0;
      LoopServesRecognitions(c1, ids[1..], down);
      RecognitionStep(c, ids, down);
      SplitFirst(ids);
    }
  }

  /** Every forget event is served: after a run of them, one entry has been
      removed for each forgotten id that was still present. */
  lemma {:induction false} LoopServesForgets(c: Coordinator, ids: seq<int>, down: set<int>)
    ensures Deliverable(c, Forgets(ids))
    ensures var r := Loop(c, Forgets(ids), down);
            r.Done? && multiset(r.value.players) == multiset(c.players) - multiset(ids)
    decreases |ids|
  {
    NoBallCommands(c, ids);
    if |ids| > 0 {
      var p := ids[0];
      var c1 := ForgetOther(c, p).0;
      LoopServesForgets(c1, ids[1..], down);
      ForgetStep(c, ids, down);
      SplitFirst(ids);
      MinusTwice(multiset(c.players), p, multiset(ids[1..]));
    }
  }

  /** A ball command is served by throwing the ball; a fatal throw ends the
      loop, otherwise the loop goes on with the next event. */
  lemma LoopServesBall(c: Coordinator, dir: Direction, rest: seq<Event>, down: set<int>)
    requires c.hasBallChannel
    ensures Deliverable(c, [BallCommand(dir)] + rest)
    ensures var t := ThrowBall(c, dir, down);
            Loop(c, [BallCommand(dir)] + rest, down)
              == if t.Fatal? then Fatal(t.reason, t.out) else Prepend(t.out, Loop(c, rest, down))
  {
    assert ([BallCommand(dir)] + rest)[1..] == rest;
  }

  /** A drain request stops the relay accepting, says goodbye to every roster
      entry whatever fails, and the loop goes on with the next event. */
  lemma LoopServesDrain(c: Coordinator, rest: seq<Event>, down: set<int>)
    requires Deliverable(c, rest)
    ensures Deliverable(c, [NoNewBallsOrPeopleRequest] + rest)
    ensures Loop(c, [NoNewBallsOrPeopleRequest] + rest, down)
              == Prepend([RelayStopAccepting] + SayGoodbye(c.self, c.players, down), Loop(c, rest, down))
  {
    var events := [NoNewBallsOrPeopleRequest] + rest;
    assert events[1..] == rest;
    assert Deliverable(c, events) by {
      if !c.hasBallChannel {
        forall i | 0 <= i < |events| ensures !events[i].BallCommand? {
          if i > 0 { assert events[i] == rest[i - 1]; }
        }
      }
    }
  }

  /** Nothing is served after a stop request. */
  lemma StopEndsLoop(c: Coordinator, rest: seq<Event>, down: set<int>)
    requires Deliverable(c, [StopRequest] + rest)
    ensures Loop(c, [StopRequest] + rest, down) == Done(c, [Shutdown, CloseDoorChannel])
  {
  }

  /** Throwing left from the left-most position is fatal and makes no call. */
  lemma LeftmostThrowIsFatal(c: Coordinator, down: set<int>)
    requires Sorted(c.players)
    requires |c.players| == 0 || c.self < c.players[0]
    ensures ThrowBall(c, Left, down) == Fatal(NobodyOnLeft, [])
  {
  }
}

=== FILE: doors.dfy ===
/**
 The door state machine: which of the two doors of this player's screen
 open onto a neighbour, derived from the player's own id and the roster,
 and the idempotent command that changes one door and notifies the screen.
 */
module Doors {
  import opened Model
  import opened Roster

  /** The state of both doors. */
  datatype DoorPair = DoorPair(left: DoorState, right: DoorState) {
    function Side(side: Direction): DoorState {
      match side
      case Left => left
      case Right => right
    }
  }

  /** Both doors start closed. */
  const Initial := DoorPair(Closed, Closed)

  /** The door rule, read off the first and last roster ids. */
  function DoorRule(self: int, ids: seq<int>): (d: DoorPair)
    ensures Sorted(ids) ==> (d.left == Open <==> exists j :: 0 <= j < |ids| && ids[j] <= self)
    ensures Sorted(ids) ==> (d.right == Open <==> exists j :: 0 <= j < |ids| && self <= ids[j])
  {
    if |ids| == 0 then DoorPair(Closed, Closed)
    else if self < ids[0] then DoorPair(Closed, Open)
    else if ids[|ids| - 1] < self then DoorPair(Open, Closed)
    else DoorPair(Open, Open)
  }

  /** Bring one door to the commanded state. When it is already there nothing
      changes and nothing is sent; otherwise only that door changes and the
      command is sent once on the door channel. */
  function AssureDoor(d: DoorPair, dc: DoorCommand): (r: (DoorPair, seq<Output>))
    ensures r.0.Side(dc.side) == dc.state
    ensures r.0.Side(dc.side.Opposite()) == d.Side(dc.side.Opposite())
    ensures d.Side(dc.side) == dc.state ==> r.0 == d && r.1 == []
    ensures d.Side(dc.side) != dc.state ==> r.1 == [SendDoor(dc)]
  {
    match dc
    case DoorCommand(Open, Left) =>
      if d.left == Open then (d, []) else (d.(left := Open), [SendDoor(dc)])
    case DoorCommand(Open, Right) =>
      if d.right == Open then (d, []) else (d.(right := Open), [SendDoor(dc)])
    case DoorCommand(Closed, Left) =>
      if d.left == Closed then (d, []) else (d.(left := Closed), [SendDoor(dc)])
    case DoorCommand(Closed, Right) =>
      if d.right == Closed then (d, []) else (d.(right := Closed), [SendDoor(dc)])
  }

  /** Issuing the same door command twice sends at most one notification,
      and exactly one when the door was not already in that state. */
  lemma AssureDoorTwice(d: DoorPair, dc: DoorCommand)
    ensures var (d1, o1) := AssureDoor(d, dc);
            var (d2, o2) := AssureDoor(d1, dc);
            d2 == d1 && o2 == [] &&
            (|o1 + o2| == 1 <==> d.Side(dc.side) != dc.state)
  {
  }

  /** Recompute both doors from the roster: the left door is assured first,
      then the right one. Only the doors that change are announced. */
  function CheckDoors(self: int, ids: seq<int>, d: DoorPair): (r: (DoorPair, seq<Output>))
    ensures r.0 == DoorRule(self, ids)
    ensures r.1 == [] <==> d == DoorRule(self, ids)
    ensures |r.1| == (if d.left != r.0.left then 1 else 0) + (if d.right != r.0.right then 1 else 0)
    ensures forall i :: 0 <= i < |r.1| ==>
              && r.1[i].SendDoor?
              && r.0.Side(r.1[i].cmd.side) == r.1[i].cmd.state
              && d.Side(r.1[i].cmd.side) != r.1[i].cmd.state
    ensures |r.1| == 2 ==> r.1[0].cmd.side == Left && r.1[1].cmd.side == Right
  {
    var rule := DoorRule(self, ids);
    var (d1, o1) := AssureDoor(d, DoorCommand(rule.left, Left));
    var (d2, o2) := AssureDoor(d1, DoorCommand(rule.right, Right));
    (d2, o1 + o2)
  }

  /** Recomputing the doors a second time from the same roster changes and
      sends nothing. */
  lemma CheckDoorsIdempotent(self: int, ids: seq<int>, d: DoorPair)
    ensures var d1 := CheckDoors(self, ids, d).0;
            CheckDoors(self, ids, d1) == (d1, [])
  {
  }

  /** The doors agree with ball routing: the left door is open exactly when
      there is a roster entry before this player's insertion point, and, when
      no other player shares this player's id, the right door is open exactly
      when there is one at or after it. */
  lemma DoorsMatchNeighbours(self: int, ids: seq<int>)
    requires Sorted(ids)
    ensures DoorRule(self, ids).left == Open <==> FindInsertion(ids, self) > 0
    ensures self !in ids ==> (DoorRule(self, ids).right == Open <==> FindInsertion(ids, self) < |ids|)
  {
    var k := FindInsertion(ids, self);
    if k < |ids| {
      assert self < ids[k];
    }
    if k > 0 {
      assert ids[k - 1] <= self;
    }
  }

  /** When another player has this player's id and is last in the roster, the
      right door is open although there is nobody to throw to on the right. */
  lemma SharedIdOpensRightDoor()
    ensures DoorRule(5, [5]).right == Open
    ensures FindInsertion([5], 5) == |[5]|
  {
  }

  /** The four worked cases of the rule. */
  lemma DoorScenarios()
    ensures DoorRule(5, []) == DoorPair(Closed, Closed)
    ensures DoorRule(5, [3, 7]) == DoorPair(Open, Open)
    ensures DoorRule(5, [10]) == DoorPair(Closed, Open)
    ensures DoorRule(5, [1]) == DoorPair(Open, Closed)
  {
  }
}

=== FILE: model.dfy ===
/**
 Shared vocabulary of the peer coordinator: door states and sides, the
 commands sent to the screen, the remote calls made to other players, and
 the trace of everything the coordinator emits.

 Remote calls and channel sends are not performed; each becomes an
 `Output` appended to a trace, so that "exactly one notification" and
 "no call attempted" can be stated about a transition's result.
 */
module Model {

  /** State of one door: open towards a neighbour, or closed to the outside. */
  datatype DoorState = Open | Closed

  /** A side of the screen; also the direction a ball is thrown. */
  datatype Direction = Left | Right {
    function Opposite(): Direction {
      match this
      case Left => Right
      case Right => Left
    }
  }

  /** The value sent on the door-command channel. */
  datatype DoorCommand = DoorCommand(state: DoorState, side: Direction)

  /** One remote procedure of the game service, with the payload that matters
      to the coordinator (ball coordinates and float settings are omitted). */
  datatype Rpc =
    | Recognize(who: int)
    | Forget(who: int)
    | Accept
    | Quit
    | Kick
    | MasterCommand(name: string)
    | SetPauseDuration
    | SetGravity

  /** Everything the coordinator does to the outside world, in order. */
  datatype Output =
    | SendDoor(cmd: DoorCommand)     // blocking send on the door-command channel
    | Call(rpc: Rpc, target: int)    // an RPC to the player with id `target`
    | Serve(name: string)            // registering the local service under a name
    | RelayStopAccepting             // relay.StopAcceptingData()
    | Shutdown                       // the runtime's shutdown function
    | CloseDoorChannel               // close(chDoorCommand)

  /** The reasons the coordinator terminates the process. */
  datatype Panic =
    | NobodyOnLeft
    | NobodyOnRight
    | RpcFailed(rpc: Rpc, target: int)
    | MasterHasBallChannel
    | ServeFailed
    | SliceOutOfRange(name: string)

  datatype Option<+T> = None | Some(value: T)

  /** The result of a transition: a value and the outputs emitted, or a fatal
      stop together with the outputs emitted before it. */
  datatype Effect<+T> = Done(value: T, out: seq<Output>) | Fatal(reason: Panic, out: seq<Output>)

  const TwoTo31: int := 0x8000_0000
  const TwoTo32: int := 0x1_0000_0000

  /** A Go `int` converted with `int32(...)`: two's-complement wrap-around. */
  function Wrap32(n: int): (r: int)
    ensures -TwoTo31 <= r < TwoTo31
    ensures (n - r) % TwoTo32 == 0
    ensures -TwoTo31 <= n < TwoTo31 ==> r == n
  {
    var m := (n + TwoTo31) % TwoTo32;
    m - TwoTo31
  }
}

=== FILE: naming.dfy ===
/**
 The naming scheme: a player with id n serves under the root name followed
 by n written in decimal and zero-padded to four characters, and discovery
 recovers ids by parsing what follows the root name in each name found.

 Formatting follows Go's `%04d` verb (a minus sign takes one of the four
 places) and parsing follows `strconv.ParseInt(s, 10, 32)` (an optional
 sign, at least one decimal digit and nothing else, a value in 32-bit range).
 */
module Naming {
  import opened Model

  predicate IsDigit(c: char) {
    '0' <= c <= '9'
  }

  predicate AllDigits(s: string) {
    forall i :: 0 <= i < |s| ==> IsDigit(s[i])
  }

  function DigitChar(d: nat): (c: char)
    requires d < 10
    ensures IsDigit(c) && c as int - '0' as int == d
  {
    ('0' as int + d) as char
  }

  /** Decimal digits of `n`, most significant first, without leading zeros. */
  function Digits(n: nat): (s: string)
    ensures |s| >= 1 && AllDigits(s)
    ensures |s| > 1 ==> s[0] != '0'
    ensures n == 0 ==> s == "0"
  {
    if n < 10 then [DigitChar(n)] else Digits(n / 10) + [DigitChar(n % 10)]
  }

  /** The value of a string of decimal digits; the empty string reads as 0. */
  function DigitsValue(s: string): (v: nat)
    requires AllDigits(s)
  {
    if |s| == 0 then 0
    else DigitsValue(s[..|s| - 1]) * 10 + (s[|s| - 1] as int - '0' as int)
  }

  function Zeros(n: nat): (s: string)
    ensures |s| == n && AllDigits(s)
  {
    if n == 0 then "" else "0" + Zeros(n - 1)
  }

  /** `s` with zeros in front until it is at least `width` long. */
  function PadZeros(s: string, width: nat): (r: string)
    ensures |r| == if |s| < width then width else |s|
    ensures AllDigits(s) ==> AllDigits(r)
  {
    if |s| < width then Zeros(width - |s|) + s else s
  }

  /** Go's `fmt.Sprintf("%04d", n)`. */
  function Format04(n: int): (s: string)
    ensures |s| >= 4
    ensures 0 <= n ==> AllDigits(s)
    ensures n < 0 ==> s[0] == '-' && AllDigits(s[1..])
    ensures |s| == 4 || (s[0] != '0' && (s[0] == '-' ==> s[1] != '0'))
  {
    if n < 0 then "-" + PadZeros(Digits(-n), 3) else PadZeros(Digits(n), 4)
  }

  /** The name a player with id `n` serves under. */
  function ServerName(rootName: string, n: int): (name: string)
    ensures |name| >= |rootName| + 4
    ensures name[..|rootName|] == rootName
  {
    rootName + Format04(n)
  }

  /** `s` without its leading sign, if it has one. */
  function Unsigned(s: string): (b: string)
    ensures |s| > 0 && (s[0] == '+' || s[0] == '-') ==> b == s[1..]
    ensures |s| == 0 || (s[0] != '+' && s[0] != '-') ==> b == s
  {
    if |s| > 0 && (s[0] == '+' || s[0] == '-') then s[1..] else s
  }

  /** An optional sign followed by at least one decimal digit and nothing
      else: the syntax base-10 `strconv.ParseInt` accepts. */
  predicate IsDecimal(s: string) {
    |Unsigned(s)| > 0 && AllDigits(Unsigned(s))
  }

  /** The integer a decimal string denotes. */
  function DecimalValue(s: string): (v: int)
    requires IsDecimal(s)
    ensures s[0] == '-' ==> v <= 0
    ensures s[0] != '-' ==> v >= 0
  {
    var m: int := DigitsValue(Unsigned(s));
    if s[0] == '-' then -m else m
  }

  /** `strconv.ParseInt(s, 10, 32)`: None for a syntax or range error. */
  function ParseInt32(s: string): (r: Option<int>)
    ensures r.Some? <==> IsDecimal(s) && -TwoTo31 <= DecimalValue(s) < TwoTo31
    ensures r.Some? ==> r.value == DecimalValue(s)
  {
    if |s| == 0 then None
    else
      var negative := s[0] == '-';
      var body := if s[0] == '+' || s[0] == '-' then s[1..] else s;
      if |body| == 0 || !AllDigits(body) then None
      else
        var magnitude: int := DigitsValue(body);
        if !negative && magnitude >= TwoTo31 then None
        else if negative && magnitude > TwoTo31 then None
        else Some(if negative then -magnitude else magnitude)
  }

  /** One result delivered by the namespace glob. */
  datatype GlobReply = Entry(name: string) | GlobError

  /** A reply that makes `name[len(rootName):]` panic: a non-empty entry
      name shorter than the root name. */
  predicate IsShortName(rootName: string, reply: GlobReply) {
    reply.Entry? && reply.name != "" && |reply.name| < |rootName|
  }

  /** The ids found in one glob's replies, in reply order. An empty name or
      a non-entry reply is ignored; a suffix that does not parse is skipped;
      a non-empty name shorter than the root name is a slice out of range. */
  function ParseReplies(rootName: string, replies: seq<GlobReply>): (r: Effect<seq<int>>)
    ensures r.out == []
    ensures r.Done? ==> |r.value| <= |replies|
    ensures r.Done? ==> forall i :: 0 <= i < |r.value| ==> -TwoTo31 <= r.value[i] < TwoTo31
    ensures r.Fatal? <==> exists i :: 0 <= i < |replies| && IsShortName(rootName, replies[i])
    ensures r.Fatal? ==> r.reason.SliceOutOfRange? && r.reason.name != "" && |r.reason.name| < |rootName|
  {
    if |replies| == 0 then Done([], [])
    else
      var rest := ParseReplies(rootName, replies[1..]);
      assert forall i :: 1 <= i < |replies| ==> replies[i] == replies[1..][i - 1];
      match replies[0]
      case GlobError => rest
      case Entry(name) =>
        if name == "" then rest
        else if |name| < |rootName| then Fatal(SliceOutOfRange(name), [])
        else
          match ParseInt32(name[|rootName|..])
          case None => rest
          case Some(n) =>
            if rest.Fatal? then rest else Done([n] + rest.value, [])
  }

  /** Discovery: a failed glob yields no ids. */
  function PlayerNumbers(rootName: string, glob: Option<seq<GlobReply>>): (r: Effect<seq<int>>)
    ensures glob.None? ==> r == Done([], [])
    ensures glob.Some? ==> r == ParseReplies(rootName, glob.value)
    ensures r.Done? ==> forall i :: 0 <= i < |r.value| ==> -TwoTo31 <= r.value[i] < TwoTo31
  {
    match glob
    case None => Done([], [])
    case Some(replies) => ParseReplies(rootName, replies)
  }

  lemma {:induction false} DigitsRoundTrip(n: nat)
    ensures DigitsValue(Digits(n)) == n
  {
    if n >= 10 {
      var s := Digits(n);
      assert s[..|s| - 1] == Digits(n / 10);
      DigitsRoundTrip(n / 10);
    }
  }

  lemma {:induction false} LeadingZerosIgnored(k: nat, s: string)
    requires AllDigits(s)
    ensures AllDigits(Zeros(k) + s)
    ensures DigitsValue(Zeros(k) + s) == DigitsValue(s)
  {
    if |s| == 0 {
      assert Zeros(k) + s == Zeros(k);
      ZerosValue(k);
    } else {
      var t := Zeros(k) + s;
      assert t[..|t| - 1] == Zeros(k) + s[..|s| - 1];
      LeadingZerosIgnored(k, s[..|s| - 1]);
    }
  }

  lemma {:induction false} ZerosValue(k: nat)
    ensures DigitsValue(Zeros(k)) == 0
  {
    if k > 0 {
      var z := Zeros(k);
      assert z[..|z| - 1] == Zeros(k - 1) by {
        ZerosAllZero(k);
        ZerosAllZero(k - 1);
      }
      ZerosAllZero(k);
      ZerosValue(k - 1);
    }
  }

  lemma {:induction false} ZerosAllZero(k: nat)
    ensures forall i :: 0 <= i < k ==> Zeros(k)[i] == '0'
  {
    if k > 0 {
      ZerosAllZero(k - 1);
    }
  }

  /** Zero padding does not change the parsed value. */
  lemma PaddedValue(n: nat, width: nat)
    ensures AllDigits(PadZeros(Digits(n), width))
    ensures DigitsValue(PadZeros(Digits(n), width)) == n
  {
    DigitsRoundTrip(n);
    var s := Digits(n);
    if |s| < width {
      LeadingZerosIgnored(width - |s|, s);
    }
  }

  /** Stripping the root name from a server name and parsing the rest gives
      back the id, for every id in 32-bit range. */
  lemma ServerNameRoundTrip(rootName: string, n: int)
    requires -TwoTo31 <= n < TwoTo31
    ensures ParseInt32(ServerName(rootName, n)[|rootName|..]) == Some(n)
  {
    var suffix := ServerName(rootName, n)[|rootName|..];
    assert suffix == Format04(n);
    if n < 0 {
      NegativeRoundTrip(n);
    } else {
      NonNegativeRoundTrip(n);
    }
  }

  lemma NonNegativeRoundTrip(n: int)
    requires 0 <= n < TwoTo31
    ensures ParseInt32(Format04(n)) == Some(n)
  {
    var s := Format04(n);
    assert s == PadZeros(Digits(n), 4);
    PaddedValue(n, 4);
    assert IsDigit(s[0]);
    assert s[0] != '+' && s[0] != '-';
  }

  lemma NegativeRoundTrip(n: int)
    requires -TwoTo31 <= n < 0
    ensures ParseInt32(Format04(n)) == Some(n)
  {
    var s := Format04(n);
    var body := PadZeros(Digits(-n), 3);
    assert s == "-" + body;
    assert s[1..] == body;
    PaddedValue(-n, 3);
    ParseNegative(s);
  }

  lemma ParseNegative(s: string)
    requires |s| > 1 && s[0] == '-' && AllDigits(s[1..]) && DigitsValue(s[1..]) <= TwoTo31
    ensures ParseInt32(s) == Some(0 - DigitsValue(s[1..]) as int)
  {
  }

  /** The glob replies naming the players with the given ids. */
  function ServerEntries(rootName: string, ids: seq<int>): (r: seq<GlobReply>)
    ensures |r| == |ids|
  {
    if |ids| == 0 then [] else [Entry(ServerName(rootName, ids[0]))] + ServerEntries(rootName, ids[1..])
  }

  /** Discovery recovers exactly the ids whose server names were found. */
  lemma {:induction false} DiscoveryRoundTrip(rootName: string, ids: seq<int>)
    requires forall i :: 0 <= i < |ids| ==> -TwoTo31 <= ids[i] < TwoTo31
    ensures PlayerNumbers(rootName, Some(ServerEntries(rootName, ids))) == Done(ids, [])
  {
    if |ids| > 0 {
      var replies := ServerEntries(rootName, ids);
      assert replies[1..] == ServerEntries(rootName, ids[1..]);
      DiscoveryRoundTrip(rootName, ids[1..]);
      ServerNameRoundTrip(rootName, ids[0]);
      assert ids == [ids[0]] + ids[1..];
    }
  }

  /** A non-entry reply and an entry with an empty name contribute nothing
      and are never fatal. */
  lemma IgnoredRepliesSkipped(rootName: string, replies: seq<GlobReply>)
    ensures ParseReplies(rootName, [GlobError] + replies) == ParseReplies(rootName, replies)
    ensures ParseReplies(rootName, [Entry("")] + replies) == ParseReplies(rootName, replies)
  {
    assert ([GlobError] + replies)[1..] == replies;
    assert ([Entry("")] + replies)[1..] == replies;
  }

  /** A name whose suffix parses contributes its id, in reply order, unless a
      later reply is fatal. */
  lemma ParsedNameKept(rootName: string, name: string, n: int, replies: seq<GlobReply>)
    requires |rootName| <= |name|
    requires ParseInt32(name[|rootName|..]) == Some(n)
    ensures var rest := ParseReplies(rootName, replies);
            ParseReplies(rootName, [Entry(name)] + replies) == if rest.Fatal? then rest else Done([n] + rest.value, [])
  {
    assert ([Entry(name)] + replies)[1..] == replies;
  }

  /** A name whose suffix does not parse is skipped, not fatal. */
  lemma MalformedNameSkipped(rootName: string, name: string, replies: seq<GlobReply>)
    requires |rootName| <= |name|
    requires ParseInt32(name[|rootName|..]).None?
    ensures ParseReplies(rootName, [Entry(name)] + replies) == ParseReplies(rootName, replies)
  {
    assert ([Entry(name)] + replies)[1..] == replies;
  }
}

=== FILE: roster.dfy ===
/**
 The roster: the ids of the other players, kept in ascending order by
 insertion. The order is not strict: `recognizeOther` inserts a repeated
 id again after the entries equal to it, and `forgetOther` removes only the
 first entry with the id.
 */
module Roster {

  /** Ascending, not necessarily strictly. */
  ghost predicate Sorted(ids: seq<int>) {
    forall i, j :: 0 <= i < j < |ids| ==> ids[i] <= ids[j]
  }

  /** `ids` with the entry at `i` removed; every other entry keeps its order. */
  function RemoveAt(ids: seq<int>, i: nat): (r: seq<int>)
    requires i < |ids|
    ensures |r| == |ids| - 1
    ensures forall j :: 0 <= j < i ==> r[j] == ids[j]
    ensures forall j :: i <= j < |r| ==> r[j] == ids[j + 1]
  {
    ids[..i] + ids[i + 1..]
  }

  /** The insertion point for `p`: the first index whose id is strictly
      greater than `p`, or `|ids|` when there is none. The entry before it is
      the left neighbour of `p`, the entry at it the right neighbour. */
  function FindInsertion(ids: seq<int>, p: int): (k: nat)
    ensures k <= |ids|
    ensures forall j :: 0 <= j < k ==> ids[j] <= p
    ensures k < |ids| ==> p < ids[k]
    ensures Sorted(ids) ==> forall j :: k <= j < |ids| ==> p < ids[j]
  {
    if |ids| == 0 then 0
    else if p < ids[0] then 0
    else 1 + FindInsertion(ids[1..], p)
  }

  /** The roster after recognizing `p`: `p` placed at its insertion point,
      the entries at and after it shifted right by one. */
  function Insert(ids: seq<int>, p: int): (r: seq<int>)
    ensures |r| == |ids| + 1
    ensures r[FindInsertion(ids, p)] == p
    ensures RemoveAt(r, FindInsertion(ids, p)) == ids
    ensures multiset(r) == multiset(ids) + multiset{p}
    ensures Sorted(ids) ==> Sorted(r)
  {
    var k := FindInsertion(ids, p);
    var r := ids[..k] + [p] + ids[k..];
    InsertContents(ids, p, k, r);
    InsertKeepsOrder(ids, p, k, r);
    r
  }

  lemma InsertContents(ids: seq<int>, p: int, k: nat, r: seq<int>)
    requires k <= |ids| && r == ids[..k] + [p] + ids[k..]
    ensures |r| == |ids| + 1 && r[k] == p
    ensures RemoveAt(r, k) == ids
    ensures multiset(r) == multiset(ids) + multiset{p}
  {
    assert ids == ids[..k] + ids[k..];
    assert RemoveAt(r, k) == ids;
  }

  lemma InsertKeepsOrder(ids: seq<int>, p: int, k: nat, r: seq<int>)
    requires k <= |ids| && r == ids[..k] + [p] + ids[k..]
    requires forall j :: 0 <= j < k ==> ids[j] <= p
    requires Sorted(ids) ==> forall j :: k <= j < |ids| ==> p < ids[j]
    ensures Sorted(ids) ==> Sorted(r)
  {
    if Sorted(ids) {
      forall i, j | 0 <= i < j < |r|
        ensures r[i] <= r[j]
      {
        var a := if i < k then ids[i] else if i == k then p else ids[i - 1];
        var b := if j < k then ids[j] else if j == k then p else ids[j - 1];
        assert r[i] == a && r[j] == b;
      }
    }
  }

  /** The first index `i` below `limit` for which `pred(i)` holds, or -1. */
  function FindIndex(limit: int, pred: int --> bool): (i: int)
    requires forall j :: 0 <= j < limit ==> pred.requires(j)
    ensures i == -1 || 0 <= i < limit
    ensures 0 <= i ==> pred(i) && forall j :: 0 <= j < i ==> !pred(j)
    ensures i == -1 ==> forall j :: 0 <= j < limit ==> !pred(j)
  {
    FindIndexFrom(limit, pred, 0)
  }

  function FindIndexFrom(limit: int, pred: int --> bool, from: nat): (i: int)
    requires forall j :: from <= j < limit ==> pred.requires(j)
    ensures i == -1 || (from <= i < limit && pred(i))
    ensures forall j :: from <= j < limit && (i == -1 || j < i) ==> !pred(j)
    decreases limit - from
  {
    if from < limit then
      if pred(from) then from else FindIndexFrom(limit, pred, from + 1)
    else -1
  }

  /** The index of the first entry with id `p`, or -1 when `p` is absent. */
  function FindPlayerIndex(ids: seq<int>, p: int): (r: int)
    ensures -1 <= r < |ids|
    ensures r == -1 <==> p !in ids
    ensures 0 <= r ==> r < |ids| && ids[r] == p
    ensures forall j :: 0 <= j < r ==> ids[j] != p
  {
    var matches := j requires 0 <= j < |ids| => ids[j] == p;
    var i := FindIndex(|ids|, matches);
    assert forall j :: 0 <= j < |ids| && (i == -1 || j < i) ==> ids[j] != p by {
      forall j | 0 <= j < |ids| && (i == -1 || j < i) ensures ids[j] != p { assert !matches(j); }
    }
    i
  }

  /** The roster after forgetting `p`: only the first entry with id `p` is
      removed; when there is none, the roster is unchanged. */
  function Remove(ids: seq<int>, p: int): (r: seq<int>)
    ensures p !in ids ==> r == ids
    ensures p in ids ==> exists i :: 0 <= i < |ids| && ids[i] == p && p !in ids[..i] && r == RemoveAt(ids, i)
    ensures multiset(r) == multiset(ids) - multiset{p}
    ensures Sorted(ids) ==> Sorted(r)
  {
    var i := FindPlayerIndex(ids, p);
    if i > -1 then
      RemoveAtContents(ids, i);
      RemoveAt(ids, i)
    else ids
  }

  lemma RemoveAtContents(ids: seq<int>, i: nat)
    requires i < |ids|
    ensures multiset(RemoveAt(ids, i)) == multiset(ids) - multiset{ids[i]}
    ensures Sorted(ids) ==> Sorted(RemoveAt(ids, i))
  {
    assert ids == ids[..i] + [ids[i]] + ids[i + 1..];
  }

  /** Removing any one of a run of equal entries gives the same sequence. */
  lemma {:induction false} RemoveInRun(s: seq<int>, i: nat, k: nat)
    requires i <= k < |s|
    requires forall j :: i <= j <= k ==> s[j] == s[k]
    ensures RemoveAt(s, i) == RemoveAt(s, k)
  {
    var a, b := RemoveAt(s, i), RemoveAt(s, k);
    forall j | 0 <= j < |a|
      ensures a[j] == b[j]
    {
      if i <= j < k {
        assert a[j] == s[j + 1] && b[j] == s[j];
        assert s[j + 1] == s[k] && s[j] == s[k];
      }
    }
  }

  /** Recognizing an id and then forgetting it restores the roster, whether or
      not the id was already present. */
  lemma {:induction false} RecognizeThenForget(ids: seq<int>, p: int)
    requires Sorted(ids)
    ensures Remove(Insert(ids, p), p) == ids
  {
    var k := FindInsertion(ids, p);
    var r := Insert(ids, p);
    FirstMatchNoLater(r, p, k);
    var i := FindPlayerIndex(r, p);
    SortedRun(r, i, k);
    RemoveInRun(r, i, k);
  }

  lemma FirstMatchNoLater(s: seq<int>, p: int, k: nat)
    requires k < |s| && s[k] == p
    ensures 0 <= FindPlayerIndex(s, p) <= k
  {
    assert s[k] in s;
  }

  lemma SortedRun(s: seq<int>, i: nat, k: nat)
    requires Sorted(s) && i <= k < |s| && s[i] == s[k]
    ensures forall j :: i <= j <= k ==> s[j] == s[k]
  {
    forall j | i <= j <= k
      ensures s[j] == s[k]
    {
      assert s[i] <= s[j] <= s[k];
    }
  }

  /** `xs` inserted, in order, into `ids`. Repeated recognition is an
      insertion sort. */
  function InsertAll(ids: seq<int>, xs: seq<int>): (r: seq<int>)
    ensures multiset(r) == multiset(ids) + multiset(xs)
    ensures Sorted(ids) ==> Sorted(r)
    decreases |xs|
  {
    if |xs| == 0 then ids
    else
      assert xs == [xs[0]] + xs[1..];
      InsertAll(Insert(ids, xs[0]), xs[1..])
  }

  /** The ascending arrangement of `xs`; `sort.Ints` has the same result,
      because a sorted permutation of integers is unique. */
  function SortInts(xs: seq<int>): (r: seq<int>)
    ensures Sorted(r)
    ensures multiset(r) == multiset(xs)
  {
    InsertAll([], xs)
  }

  /** The last entry of a sorted, non-empty roster is its maximum. */
  lemma LastIsMax(ids: seq<int>)
    requires Sorted(ids) && |ids| > 0
    ensures forall x :: x in ids ==> x <= ids[|ids| - 1]
  {
  }
}
